=== FILE: README.md ===
# Reactive todo model in Dafny

This project models the reactive core of a small JavaScript todo application
as pure state transitions. Two pieces are modelled in full:

- **`Computed`**, a read-only derived value. It holds `f` applied to the
  current values of its inputs. It computes that value once when created,
  then recomputes it eagerly on every change notification from any input.
  It pushes each result through an inner observable, so its own listeners hear
  only about real changes.
- **The todo controller's model logic.** Each todo has an observable text, an
  observable done flag and a validity that is a `Computed` over its text and
  the two shared settings, `minLength` and `minLengthMode`. A todo is valid
  when its measured length reaches the minimum. In `"words"` mode the length
  is the number of pieces `text.split(/\s+/)` yields; in any other mode it is
  the character count. The controller covers:
  - the defaults: text `"text"`, not done, minimum 1, mode `"letters"`;
  - `addTodo`, `numberOfTodos` and `numberOfopenTasks`;
  - `addFortuneTodo`, whose `"..."` placeholder is replaced when its scheduled
    task runs, after which the task signals completion;
  - the text of the minimum-length label.

The collaborators the core relies on are modelled by their visible use:

- an observable cell with an equality-gated `setValue` and a log of the
  notifications its listeners received;
- an observable list with append, delete, `count` and `countIf`;
- a scheduler that runs queued tasks one at a time, first in, first out.

Modules:

- `Observable` (observable.dfy): the cell.
- `Computed` (computed.dfy): the derived value.
- `ObservableList` (observable_list.dfy): the list.
- `Scheduler` (scheduler.dfy): the task queue.
- `Words` (words.dfy): whitespace splitting.
- `Decimal` (decimal.dfy): decimal text of integers.
- `Todo` (todo.dfy): todos and the controller.
- `TodoView` (todo_view.dfy): the minimum-length label.

Listeners are not stored as functions. Each cell keeps the sequence of
`(before, after)` pairs its listeners were called with. A `Computed` keeps
the input values as of the last notification it handled; the input cells
belong to their owner, which tells the `Computed` when one of them really
changed.

## Model

| member | source | states |
|---|---|---|
| `Observable.Make` | week1/observable/computed.js:6 | `Observable(v)` creates a cell holding `v` with an empty notification log, which is a faithful history starting at `v`. |
| `Observable.SetValue` | week1/observable/computed.js:6-7 | Setting a value equal to the current one leaves the cell exactly as it was and notifies no one. Setting a different value stores it and adds exactly one notification, carrying the old and the new value; earlier notifications are kept. |
| `Observable.SetValuesKeepHistory` | week1/observable/computed.js:6-7 | After any sequence of `setValue` calls, the notification log chains from the initial value to the current one. No notification ever carries equal old and new values. |
| `Observable.HistoryHasNoStutter` | week1/observable/computed.js:7 | In a faithful notification history every entry is a real change. |
| `Observable.RepeatedValueIsSilent` | week1/observable/computed.js:6-7 | Take a cell created with 1, then set it to 1 and then to 2. Its listeners are called exactly once, with (1, 2). |
| `Computed.Make` | week1/observable/computed.js:4-6 | The initial value is `f` applied to the input values, in the order the inputs were given. Nobody has been notified and nothing has been recomputed. |
| `Computed.InputChanged` | week1/observable/computed.js:5-8 | When input `i` reports a new value, only that input value is replaced. The derived value becomes `f` of all current input values, and the recompute count goes up by one. The facade's listeners are told exactly when the value differs from the old one, with (old, new). |
| `Computed.RunKeepsConsistent` | week1/observable/computed.js:4-13 | After any run of N input notifications, the value is `f` of the current inputs, and there were exactly N recomputations (no batching). There are at most N new notifications, and earlier ones are kept. The log stays a faithful history, so the value changes only through input changes. |
| `Computed.MadeIsConsistent` | week1/observable/computed.js:4-6 | A freshly made derived value agrees with `f` and has an empty, faithful history. |
| `ObservableList.Add` | week1/todo/todo.js:36 | `add` appends the item at the end and leaves the earlier items in place. |
| `ObservableList.CountIf` | week1/todo/todo.js:58 | `countIf` never exceeds the number of items. |
| `ObservableList.CountIfIsPositions` | week1/todo/todo.js:58 | `countIf(p)` equals the number of positions whose item satisfies `p`. |
| `ObservableList.CountIfAdd` | week1/todo/todo.js:34-38 | Appending an item raises `countIf(p)` by one exactly when the item satisfies `p`. |
| `ObservableList.CountIfComplement` | week1/todo/todo.js:57-58 | Counting `p` and counting not-`p` together give the item count. |
| `ObservableList.DelFirst` | week1/todo/todo.js:61 | Deleting an item that is not in the list changes nothing. Deleting one that is there shortens the list by one. |
| `ObservableList.DelFirstRemovesFirstMatch` | week1/todo/todo.js:61 | When some item matches, `del` removes exactly the first matching item and keeps all other items in order. |
| `Scheduler.Idle` | week1/todo/todo.js:30 | `Scheduler()` creates a scheduler that is valid and has no pending task. |
| `Scheduler.Add` | week1/todo/todo.js:47-53 | An idle scheduler starts the added task at once; a busy one queues it behind the others. Either way the pending tasks gain it at the end. |
| `Scheduler.Ok` | week1/todo/todo.js:50 | The running task's `ok` removes it from the pending tasks and starts the oldest waiting task. With no task waiting, the scheduler goes idle. |
| `Scheduler.Step` | week1/todo/todo.js:47-53 | One event starts at most one task, and a started task is the one now running. A task submitted to an idle scheduler starts at once; `ok` from the running task removes it from the pending tasks. The queue order is kept: the waiting tasks plus the submitted one equal the started tasks plus the tasks still waiting. Pending plus submitted equals completed plus pending afterwards, and running plus started equals completed plus running afterwards. |
| `Scheduler.RunIsFifo` | week1/todo/todo.js:47-53 | Over any run of submissions and completions, the waiting tasks followed by the submitted ones equal the tasks started followed by those still waiting. Tasks start in submission order. |
| `Scheduler.RunStartsEveryTask` | week1/todo/todo.js:47-53 | Over any run from a valid state, the pending and submitted tasks are the tasks that called `ok`, in order, followed by those still pending. The task running at the start followed by the tasks started are the tasks that called `ok` followed by the task running at the end. So every task that completes was started, in submission order. |
| `Scheduler.SecondWaitsForFirst` | week1/todo/todo.js:47-53 | With two tasks submitted, only the first starts; the second starts once the first calls `ok`. |
| `Words.SpaceEnd` | week1/todo/todo.js:13 | The end of a whitespace run: everything from the start up to the end is whitespace, and the run cannot be extended. |
| `Words.SpaceEndIsTheCut` | week1/todo/todo.js:13 | Any position that ends the whitespace run starting at `q` is the one `SpaceEnd` finds. |
| `Words.SplitCountsRuns` | week1/todo/todo.js:13 | `split(/\s+/)` yields one piece more than there are maximal whitespace runs, counted by their start positions. |
| `Words.IsJsSpace` | week1/todo/todo.js:13 | `\s` matches, among ASCII characters, exactly space, tab, line feed, carriage return, vertical tab and form feed; it matches every line terminator. |
| `Words.Split` | week1/todo/todo.js:13 | `split(/\s+/)` yields at least one piece, and no piece contains whitespace. |
| `Words.WordCount` | week1/todo/todo.js:13 | The word count is at least 1 and equals the number of maximal whitespace runs plus one. |
| `Words.SplitKeepsWords` | week1/todo/todo.js:13 | No piece contains whitespace, and the pieces joined together are exactly the non-whitespace characters of the text, in order. |
| `Words.SplitNoSpace` | week1/todo/todo.js:13 | A text without whitespace splits into itself alone. |
| `Words.EdgeSpacesGiveEmptyPieces` | week1/todo/todo.js:13 | Leading whitespace gives an empty first piece. Trailing whitespace gives an empty last piece, and so at least two pieces. |
| `Words.RunEnd` | week1/todo/todo.js:13 | Scanning forward from a whitespace character finds the end of its run. |
| `Words.RegExpSplit` | week1/todo/todo.js:13 | The splitting loop of ECMA-262's `RegExp.prototype[@@split]` returns the same pieces as `Split`. |
| `Words.EmptyTextIsOneWord` | week1/todo/todo.js:12-13 | The empty text counts as one word, and so does `"text"`. |
| `Words.LoneSpaceIsTwoWords` | week1/todo/todo.js:13 | A single space splits into two empty pieces, so it counts as two words. |
| `Todo.TodoOkMeansRule` | week1/todo/todo.js:11-16 | A todo whose validity is wired to its text and the shared settings reports exactly what the rule says: valid when the measured length is at least `minLength`. |
| `Todo.NewTodo` | week1/todo/todo.js:8-16 | A new todo has text `"text"` and is not done. Its validity is wired to its text and the current settings, and equals the rule applied to `"text"`. All three cells are fresh: empty text and done logs, no validity notifications and no recomputes. |
| `Todo.Length` | week1/todo/todo.js:12-14 | In `"words"` mode the measured length is the number of maximal whitespace runs plus one; in any other mode it is the number of characters. |
| `Todo.Rule` | week1/todo/todo.js:12-15 | A text is valid when its measured length reaches the minimum. Any text passes a minimum of 0 or less, and in `"words"` mode also a minimum of 1. In `"words"` mode it passes exactly when the whitespace runs plus one reach the minimum; otherwise when its character count does. |
| `Todo.ValidFn` | week1/todo/todo.js:11-16 | The compute function is true only for a (text, number, text) argument list, and for such a list it is exactly the rule on (text, minimum, mode). |
| `Todo.NumberOfTodos` | week1/todo/todo.js:57 | `numberOfTodos` is the length of the todo list. |
| `Todo.TodoSetText` | week1/todo/todo.js:11-21 | `setText` sets the text; identity and done flag are kept. An equal text changes nothing. A new text appends exactly one (old, new) entry to the text's change log and recomputes the validity once. The validity keeps its earlier notifications, and its listeners (`onValidChanged`) hear something exactly when the validity flips, and then exactly one (old, new) notification. The validity stays wired. |
| `Todo.Init` | week1/todo/todo.js:29-32 | The controller starts with no todos, minimum length 1, mode `"letters"` and an idle scheduler with nothing pending, and satisfies the invariant. |
| `Todo.NumberOfOpenTasks` | week1/todo/todo.js:57-58 | The open-task count never exceeds the todo count. |
| `Todo.OpenTasksAreNotDone` | week1/todo/todo.js:57-58 | `numberOfopenTasks` equals the number of todos whose done flag is false. |
| `Todo.AddTodo` | week1/todo/todo.js:34-38 | `addTodo` appends exactly one new todo and returns it; the new todo is `NewTodo` with the next identity and the current settings, the identity counter advances by one, and existing todos are unchanged. Both `numberOfTodos` and `numberOfopenTasks` grow by one. The new todo has the default text, is not done, and its validity follows the rule. The invariant is kept. |
| `Todo.AppendKeepsInv` | week1/todo/todo.js:34-38 | Appending a wired todo with a fresh identity keeps the controller invariant. |
| `Todo.SetText` | week1/todo/todo.js:21 | Setting the text of one todo does to it exactly what `TodoSetText` does, and changes only that todo's text and validity. Identities, done flags, settings and scheduler stay as they were, and the invariant is kept. |
| `Todo.SetDone` | week1/todo/todo.js:19 | Setting the done flag of one todo sets it; a new flag appends exactly one (old, new) entry to its done log, an equal one changes nothing. Every text cell and validity (with their logs), and every other todo, are unchanged, as well as the settings, the identity counter and the scheduler. The invariant is kept. |
| `Todo.SetMinLength` | week1/todo/todo.js:69 | Setting the same minimum changes nothing. A new minimum is stored; identities, texts, done flags, the mode, the identity counter and the scheduler are unchanged; and a real change appends one (old, new) entry to the minimum's log. Every todo's validity is then recomputed once, keeps its earlier notifications, and notifies exactly when it flips, with exactly one (old, new) entry. The validities stay wired to the new settings and current (the invariant is kept). |
| `Todo.SetMinLengthMode` | week1/todo/todo.js:66 | The same as `SetMinLength`, for the mode. |
| `Todo.RemoveTodo` | week1/todo/todo.js:61 | `removeTodo` never lengthens the list and leaves the settings and the scheduler alone. |
| `Todo.RemoveTodoKeepsInv` | week1/todo/todo.js:61 | Removing takes out the todo with that identity. An unknown identity changes nothing; for a known one the list becomes the old list with exactly one matching entry cut out, so `numberOfTodos` drops by one. The invariant is kept. |
| `Todo.DropOneKeepsInv` | week1/todo/todo.js:61 | Dropping one todo keeps the invariant, and no remaining todo has its identity. |
| `Todo.AddFortuneTodo` | week1/todo/todo.js:40-54 | `addFortuneTodo` appends one todo whose text is immediately `"..."`, which is not done, and whose validity follows the rule on `"..."`. Existing todos and the settings are unchanged, the new todo's task joins the end of the scheduler's queue, and the invariant is kept. |
| `Todo.FortuneTodoIsAddThenSetText` | week1/todo/todo.js:42-45 | The todos after `addFortuneTodo` are the todos after `addTodo` followed by `setText("...")` on the new todo. |
| `Todo.FortuneArrives` | week1/todo/todo.js:47-53 | When the fetched text arrives for the running task, its todo gets that text exactly as `TodoSetText` gives it, keeping its identity and done flag, while every other todo, the settings and the identity counter stay unchanged. Then the task calls `ok`, which removes it from the pending tasks. The invariant is kept. |
| `Todo.ValidTracksRule` | week1/todo/todo.js:11-16 | In a controller that satisfies the invariant, every todo's validity equals the rule applied to its current text and the current settings. |
| `Todo.StepKeepsInv` | week1/todo/todo.js:34-69 | Every operation of the controller keeps the invariant. |
| `Todo.RunKeepsValidityCurrent` | week1/todo/todo.js:11-16 | After any run of operations, every todo's validity equals the rule applied to its current text and the current settings. |
| `Todo.FreshTodoIsValid` | week1/todo/todo.js:9-32 | A todo added to a fresh controller is valid, and the default text would also be valid in `"words"` mode. |
| `Todo.BlankTextCountsTwoWords` | week1/todo/todo.js:12-15 | In `"words"` mode a single space measures two words and so passes a minimum of 2; a one-letter text does not. |
| `Todo.SetMinLengthRevalidates` | week1/todo/todo.js:11-16 | After `setMinLength(n)` every todo's validity is the rule applied to its text, `n` and the mode. |
| `Todo.SetMinLengthModeRevalidates` | week1/todo/todo.js:11-16 | After `setMinLengthMode(m)` every todo's validity is the rule applied to its text, the minimum and `m`. |
| `Todo.SetTextRevalidates` | week1/todo/todo.js:11-21 | After `setText(t)` the edited todo's validity is the rule applied to `t`. |
| `TodoView.DropLast` | week1/todo/todo.js:148 | `slice(0, -1)` drops exactly the last character, and gives the empty string for the empty string. |
| `TodoView.MinLengthLabel` | week1/todo/todo.js:146-149 | The label is the minimum written in decimal, a space, then the unit: the mode, or the mode without its last character when the minimum is 1. The literal `"1 "` of the singular branch agrees with that. |
| `TodoView.LabelStatesMinLength` | week1/todo/todo.js:146-149 | The label is the minimum in decimal, a space, then the mode, singular when the minimum is 1. Reading the number back gives the minimum. |
| `TodoView.SingularDropsLastChar` | week1/todo/todo.js:147-148 | With a minimum of 1, the label plus the mode's last character is `"1 "` followed by the full mode. |
| `TodoView.DefaultLabels` | week1/todo/todo.js:146-149 | Under the defaults the label reads `"1 letter"`; a minimum of 3 in `"words"` mode reads `"3 words"`. |
| `Decimal.NatToString` | week1/todo/todo.js:149 | A number's decimal text is non-empty and all digits, with a leading zero only for zero itself. |
| `Decimal.NatRoundTrip` | week1/todo/todo.js:149 | Reading back the digits of a number gives the number. |
| `Decimal.NatToStringInjective` | week1/todo/todo.js:149 | Different numbers have different texts. |
| `Decimal.IntToString` | week1/todo/todo.js:149 | An integer's text is non-empty and starts with a minus sign exactly when the integer is negative. |
| `Decimal.IntRoundTrip` | week1/todo/todo.js:149 | The text of an integer is an optional minus sign followed by digits, and reads back as that integer. |

## Left out

- Listener functions are not stored or called. Each cell records the
  notifications it sent instead. This covers `onChange`, `onValidChanged`,
  the list's `onAdd`/`onDel`, the `removeMe` capability and
  `removeTodoRemoveListener`. The relative order in which different cells'
  listeners fire is not modelled either.
- The DOM views are not modelled: `TodoItemsView`, `TodoTotalView`,
  `TodoOpenView`, and the element and binding side of `MinTodoLengthView`.
  Only the label's text is modelled. They are UI plumbing over the
  controller's queries.
- `fortuneService` and the real asynchrony are replaced by a later step,
  `FortuneArrives`, that receives the fetched text as an argument. The fetch
  itself is external I/O.
- Todo.FortuneArrives: requires a task to be running. Only the running task
  holds an `ok` callback, so a fortune cannot arrive otherwise. `Todo.Step`
  treats a fortune arriving while the scheduler is idle as a no-op.
- The sources of observable.js, the observable list and the scheduler are not
  shown. They are modelled abstractly (modules `Observable`, `ObservableList`
  and `Scheduler`) by the way `computed.js` and `todo.js` use them:
  - equality-gated `setValue` with `(old, new)` notifications;
  - append, delete-first and counting on the list;
  - a first-in first-out task queue whose next task starts on `ok`.
- Computed.InputChanged: each input position of a computed value is a
  distinct observable. A computed value that reads the same observable at two
  positions is not modelled: there one change reaches two subscriptions and
  recomputes twice, both times seeing the new value at both positions. The
  todo's validity reads three distinct observables.
- Object identity is replaced by a `nat` identity per todo, taken from a
  counter in the controller. `removeTodo` deletes the first todo with that
  identity.
- Todo.Length: counts characters (Unicode scalar values), not the UTF-16 code
  units of JavaScript's `length`. The two differ only for characters outside
  the Basic Multilingual Plane.
- Decimal.IntToString: covers integral minimums only and writes every integer
  in plain digits. JavaScript numbers that are not integers, `NaN`, strings
  passed as the minimum, and the exponent notation JavaScript uses from 1e21
  on are not modelled.
- Todo.ValidFn: returns false for argument lists other than (text, number,
  mode). The controller never produces such a list, and the invariant pins
  the shape.
- The read-only facade of `Computed` needs no contract. The datatype is
  immutable, and only `InputChanged` (an input's notification) produces a
  new value.
- `text.split` is modelled without its optional `limit` argument, which the
  source does not pass.

=== FILE: computed.dfy ===
/**
 A read-only derived value. It holds `f` applied to the values of its inputs,
 computes it once when created and recomputes it eagerly on every change
 notification from any input, pushing the result through an inner observable
 cell so that its own listeners hear only of real changes.

 The input cells belong to whoever created them; a `Computed` keeps the input
 values in the order they were passed, as of the last notification it received.
 */
module Computed {
  import opened Observable

  datatype Computed<!I, T> = Computed(
    f: seq<I> -> T,       // the compute function, called with the input values in order
    inputs: seq<I>,       // the input values as last reported
    cell: Cell<T>,        // the inner observable; only its value and changes are exposed
    recomputes: nat       // how many times `f` was re-run after creation
  )

  /** The derived value agrees with `f` on the current input values. */
  ghost predicate Consistent<I, T>(c: Computed<I, T>) {
    c.cell.value == c.f(c.inputs)
  }

  /** `getValue` of the facade. */
  function Value<I, T>(c: Computed<I, T>): T {
    c.cell.value
  }

  /** What the listeners registered through the facade's `onChange` have been told. */
  function Notifications<I, T>(c: Computed<I, T>): seq<Change<T>> {
    c.cell.changes
  }

  /**
   Creation: the initial value is `f` applied to the input values, in the order
   the inputs were given; nobody has been notified and nothing recomputed.
   */
  function Make<I, T>(f: seq<I> -> T, inputs: seq<I>): (c: Computed<I, T>)
    ensures Consistent(c)
    ensures c.f == f && c.inputs == inputs
    ensures Value(c) == f(inputs)
    ensures |Notifications(c)| == 0 && c.recomputes == 0
  {
    Computed(f, inputs, Observable.Make(f(inputs)), 0)
  }

  /**
   The `update` handler: input `i` reported the new value `v`. The derived value
   is recomputed from all current input values and set on the inner cell.
   */
  function InputChanged<I, T(==)>(c: Computed<I, T>, i: nat, v: I): (r: Computed<I, T>)
    requires i < |c.inputs|
    ensures Consistent(r)
    ensures r.f == c.f && r.inputs == c.inputs[i := v]
    ensures r.recomputes == c.recomputes + 1
    ensures Value(r) == c.f(c.inputs[i := v])
    ensures Value(r) == Value(c) <==> Notifications(r) == Notifications(c)
    ensures Value(r) != Value(c) ==>
              Notifications(r) == Notifications(c) + [Change(Value(c), Value(r))]
  {
    var inputs := c.inputs[i := v];
    Computed(c.f, inputs, SetValue(c.cell, c.f(inputs)), c.recomputes + 1)
  }

  /** One upstream notification: input `index` now holds `value`. */
  datatype Update<I> = Update(index: nat, value: I)

  ghost predicate UpdatesFit<I>(n: nat, us: seq<Update<I>>) {
    forall k :: 0 <= k < |us| ==> us[k].index < n
  }

  /** The input values after a run of updates. */
  function ApplyAll<I>(inputs: seq<I>, us: seq<Update<I>>): (r: seq<I>)
    requires UpdatesFit(|inputs|, us)
    ensures |r| == |inputs|
    decreases |us|
  {
    if |us| == 0 then inputs
    else ApplyAll(inputs[us[0].index := us[0].value], us[1..])
  }

  /** The derived value after a run of upstream notifications, handled one by one. */
  function Run<I, T(==)>(c: Computed<I, T>, us: seq<Update<I>>): (r: Computed<I, T>)
    requires UpdatesFit(|c.inputs|, us)
    ensures r.f == c.f && |r.inputs| == |c.inputs|
    decreases |us|
  {
    if |us| == 0 then c
    else Run(InputChanged(c, us[0].index, us[0].value), us[1..])
  }

  /**
   After any run of input changes the derived value equals `f` applied to the
   current input values; there is no batching: N notifications cause exactly N
   recomputations; the facade's listeners are told at most once per
   recomputation, and what they are told is a faithful history of the value.
   */
  lemma {:induction false} RunKeepsConsistent<I, T>(init: T, c: Computed<I, T>, us: seq<Update<I>>)
    requires Consistent(c)
    requires History(init, Notifications(c), Value(c))
    requires UpdatesFit(|c.inputs|, us)
    ensures Consistent(Run(c, us))
    ensures Run(c, us).inputs == ApplyAll(c.inputs, us)
    ensures Value(Run(c, us)) == c.f(ApplyAll(c.inputs, us))
    ensures Run(c, us).recomputes == c.recomputes + |us|
    ensures |Notifications(Run(c, us))| <= |Notifications(c)| + |us|
    ensures Notifications(c) <= Notifications(Run(c, us))
    ensures History(init, Notifications(Run(c, us)), Value(Run(c, us)))
    decreases |us|
  {
    if |us| > 0 {
      var c1 := InputChanged(c, us[0].index, us[0].value);
      SetValueKeepsHistory(init, c.cell, c.f(c1.inputs));
      assert UpdatesFit(|c1.inputs|, us[1..]) by {
        forall k | 0 <= k < |us[1..]| ensures us[1..][k].index < |c1.inputs| {
          assert us[1..][k] == us[k + 1];
        }
      }
      RunKeepsConsistent(init, c1, us[1..]);
      assert Notifications(c) <= Notifications(c1);
    }
  }

  /** A freshly made derived value satisfies the premises of `RunKeepsConsistent`. */
  lemma MadeIsConsistent<I, T>(f: seq<I> -> T, inputs: seq<I>)
    ensures Consistent(Make(f, inputs))
    ensures History(f(inputs), Notifications(Make(f, inputs)), Value(Make(f, inputs)))
  {
  }
}

=== FILE: decimal.dfy ===
/**
 Decimal text of integers, as a JavaScript template literal renders an
 integral number: optional minus sign, then the digits without leading zeros.
 */
module Decimal {

  predicate IsDigit(c: char) {
    '0' <= c <= '9'
  }

  function DigitChar(d: nat): (c: char)
    requires d < 10
    ensures IsDigit(c) && c as int - '0' as int == d
  {
    ('0' as int + d) as char
  }

  function DigitValue(c: char): (d: nat)
    requires IsDigit(c)
    ensures d < 10 && DigitChar(d) == c
  {
    c as int - '0' as int
  }

  predicate AllDigits(s: string) {
    forall i :: 0 <= i < |s| ==> IsDigit(s[i])
  }

  /** The digits of `n`, most significant first, with no leading zero. */
  function NatToString(n: nat): (s: string)
    ensures |s| >= 1 && AllDigits(s)
    ensures s[0] == '0' <==> n == 0
    ensures n == 0 ==> s == "0"
    decreases n
  {
    if n < 10 then [DigitChar(n)]
    else NatToString(n / 10) + [DigitChar(n % 10)]
  }

  /** The number a string of digits denotes. */
  function ParseNat(s: string): nat
    requires AllDigits(s)
    decreases |s|
  {
    if |s| == 0 then 0
    else ParseNat(s[..|s| - 1]) * 10 + DigitValue(s[|s| - 1])
  }

  /** Reading back the digits of `n` gives `n`. */
  lemma {:induction false} NatRoundTrip(n: nat)
    ensures ParseNat(NatToString(n)) == n
    decreases n
  {
    if n >= 10 {
      NatRoundTrip(n / 10);
      var s := NatToString(n);
      assert s[..|s| - 1] == NatToString(n / 10);
    }
  }

  /** Two numbers have the same text only if they are equal. */
  lemma NatToStringInjective(m: nat, n: nat)
    requires NatToString(m) == NatToString(n)
    ensures m == n
  {
    NatRoundTrip(m);
    NatRoundTrip(n);
  }

  /** `${i}` for an integral `i`. */
  function IntToString(i: int): (s: string)
    ensures |s| >= 1
    ensures s[0] == '-' <==> i < 0
  {
    if i < 0 then "-" + NatToString(-i) else NatToString(i)
  }

  /** Well-formed integer text: an optional minus sign followed by digits. */
  predicate IsIntText(s: string) {
    if |s| > 0 && s[0] == '-' then |s| > 1 && AllDigits(s[1..]) else |s| > 0 && AllDigits(s)
  }

  function ParseInt(s: string): int
    requires IsIntText(s)
  {
    if s[0] == '-' then -(ParseNat(s[1..]) as int) else ParseNat(s)
  }

  /** The text of an integer is well-formed and reads back as that integer. */
  lemma IntRoundTrip(i: int)
    ensures IsIntText(IntToString(i))
    ensures ParseInt(IntToString(i)) == i
  {
    if i < 0 {
      NatRoundTrip(-i);
      assert IntToString(i)[1..] == NatToString(-i);
    } else {
      NatRoundTrip(i);
    }
  }
}

=== FILE: observable.dfy ===
/**
 An observable value cell: a current value plus the log of change notifications
 its listeners have received. Listeners themselves are not modelled; every
 round of listener calls is one `Change` entry in the log.
 */
module Observable {

  /** One notification round: every listener is called with `(before, after)`. */
  datatype Change<T> = Change(before: T, after: T)

  datatype Cell<T> = Cell(value: T, changes: seq<Change<T>>)

  /** A fresh cell holding `v`; nobody has been notified yet. */
  function Make<T>(v: T): (c: Cell<T>)
    ensures History(v, c.changes, c.value)
    ensures c.value == v && |c.changes| == 0
  {
    Cell(v, [])
  }

  /** True when a `SetValue(c, v)` call would notify the listeners. */
  predicate Notifies<T(==)>(c: Cell<T>, v: T) {
    v != c.value
  }

  /**
   `setValue`: a value equal to the current one is ignored and nobody is called;
   a different value replaces the current one and notifies every listener once
   with the old and the new value.
   */
  function SetValue<T(==)>(c: Cell<T>, v: T): (r: Cell<T>)
    ensures r.value == v
    ensures !Notifies(c, v) <==> r == c
    ensures Notifies(c, v) <==> |r.changes| == |c.changes| + 1
    ensures r.changes[..|c.changes|] == c.changes
    ensures Notifies(c, v) ==> r.changes[|c.changes|] == Change(c.value, v)
  {
    if v == c.value then c else Cell(v, c.changes + [Change(c.value, v)])
  }

  /**
   `changes` is a faithful history of a cell that started at `init` and now
   holds `v`: every entry is a real change (before differs from after) and the
   entries chain from `init` to `v`.
   */
  ghost predicate History<T>(init: T, changes: seq<Change<T>>, v: T)
    decreases |changes|
  {
    if |changes| == 0 then v == init
    else
      && changes[0].before == init
      && changes[0].before != changes[0].after
      && History(changes[0].after, changes[1..], v)
  }

  lemma {:induction false} HistoryExtend<T>(init: T, changes: seq<Change<T>>, v: T, w: T)
    requires History(init, changes, v)
    requires v != w
    ensures History(init, changes + [Change(v, w)], w)
    decreases |changes|
  {
    if |changes| == 0 {
      assert (changes + [Change(v, w)])[1..] == [];
    } else {
      assert (changes + [Change(v, w)])[1..] == changes[1..] + [Change(v, w)];
      HistoryExtend(changes[0].after, changes[1..], v, w);
    }
  }

  /** Every `SetValue` keeps the change log a faithful history of the cell. */
  lemma SetValueKeepsHistory<T>(init: T, c: Cell<T>, v: T)
    requires History(init, c.changes, c.value)
    ensures History(init, SetValue(c, v).changes, SetValue(c, v).value)
  {
    if v != c.value {
      HistoryExtend(init, c.changes, c.value, v);
    }
  }

  /** In a faithful history no listener is ever called with equal old and new values. */
  lemma {:induction false} HistoryHasNoStutter<T>(init: T, changes: seq<Change<T>>, v: T, k: nat)
    requires History(init, changes, v)
    requires k < |changes|
    ensures changes[k].before != changes[k].after
    decreases k
  {
    if k > 0 {
      HistoryHasNoStutter(changes[0].after, changes[1..], v, k - 1);
    }
  }

  /** A sequence of `setValue` calls, in order. */
  function SetValues<T(==)>(c: Cell<T>, vs: seq<T>): (r: Cell<T>)
    ensures |vs| > 0 ==> r.value == vs[|vs| - 1]
    ensures |vs| == 0 ==> r == c
    decreases |vs|
  {
    if |vs| == 0 then c else SetValues(SetValue(c, vs[0]), vs[1..])
  }

  /** Any run of `setValue` calls on a fresh cell leaves a faithful history. */
  lemma {:induction false} SetValuesKeepHistory<T>(init: T, c: Cell<T>, vs: seq<T>)
    requires History(init, c.changes, c.value)
    ensures History(init, SetValues(c, vs).changes, SetValues(c, vs).value)
    decreases |vs|
  {
    if |vs| > 0 {
      SetValueKeepsHistory(init, c, vs[0]);
      SetValuesKeepHistory(init, SetValue(c, vs[0]), vs[1..]);
    }
  }

  /**
   A cell created with 1, then set to 1 and to 2, has notified its listeners
   exactly once, with (1, 2).
   */
  lemma RepeatedValueIsSilent()
    ensures SetValues(Make(1), [1, 2]).changes == [Change(1, 2)]
  {
    var c1 := SetValue(Make(1), 1);
    assert c1 == Make(1);
    var c2 := SetValue(c1, 2);
    assert c2.changes == [Change(1, 2)];
    assert SetValues(c2, []) == c2;
    assert [1, 2][1..] == [2];
    assert SetValues(c1, [2]) == SetValues(c2, []);
  }
}

=== FILE: observable_list.dfy ===
/**
 The item sequence of an observable list, as the todo controller uses it:
 append, delete by identity, `count` and `countIf`. Add and delete listeners
 are not modelled.
 */
module ObservableList {

  /** `add`: the item goes to the end. */
  function Add<T>(items: seq<T>, x: T): (r: seq<T>)
    ensures |r| == |items| + 1 && r[..|items|] == items && r[|items|] == x
  {
    items + [x]
  }

  /** `count`. */
  function Count<T>(items: seq<T>): nat {
    |items|
  }

  /** `countIf`: the number of items satisfying `p`, by a full scan. */
  function CountIf<T>(items: seq<T>, p: T -> bool): (n: nat)
    ensures n <= |items|
    decreases |items|
  {
    if |items| == 0 then 0
    else CountIf(items[..|items| - 1], p) + (if p(items[|items| - 1]) then 1 else 0)
  }

  /** The positions whose item satisfies `p`. */
  ghost function Positions<T>(items: seq<T>, p: T -> bool): set<nat> {
    set i: nat | i < |items| && p(items[i])
  }

  /** `countIf` counts exactly the positions whose item satisfies `p`. */
  lemma {:induction false} CountIfIsPositions<T>(items: seq<T>, p: T -> bool)
    ensures CountIf(items, p) == |Positions(items, p)|
    decreases |items|
  {
    if |items| > 0 {
      var n := |items| - 1;
      var front := items[..n];
      CountIfIsPositions(front, p);
      var before := Positions(front, p);
      if p(items[n]) {
        assert Positions(items, p) == before + {n};
        assert n !in before;
      } else {
        assert Positions(items, p) == before;
      }
    }
  }

  /** Appending an item raises `countIf` by one exactly when the item satisfies `p`. */
  lemma CountIfAdd<T>(items: seq<T>, x: T, p: T -> bool)
    ensures CountIf(Add(items, x), p) == CountIf(items, p) + (if p(x) then 1 else 0)
  {
    assert Add(items, x)[..|items|] == items;
  }

  /** Counting `p` and counting its negation together cover the whole list. */
  lemma {:induction false} CountIfComplement<T>(items: seq<T>, p: T -> bool)
    ensures CountIf(items, p) + CountIf(items, x => !p(x)) == |items|
    decreases |items|
  {
    if |items| > 0 {
      CountIfComplement(items[..|items| - 1], p);
    }
  }

  /** True when no item satisfies `matches`. */
  predicate NoneMatch<T>(items: seq<T>, matches: T -> bool) {
    forall i :: 0 <= i < |items| ==> !matches(items[i])
  }

  /** Position `k` holds the first item satisfying `matches`. */
  predicate FirstMatch<T>(items: seq<T>, matches: T -> bool, k: nat) {
    && k < |items|
    && matches(items[k])
    && NoneMatch(items[..k], matches)
  }

  /**
   `del`: removes the first item that `matches` (the list compares by identity);
   when no item matches, the list is left as it is.
   */
  function DelFirst<T>(items: seq<T>, matches: T -> bool): (r: seq<T>)
    ensures NoneMatch(items, matches) ==> r == items
    ensures !NoneMatch(items, matches) ==> |r| == |items| - 1
    decreases |items|
  {
    if |items| == 0 then items
    else if matches(items[0]) then items[1..]
    else
      assert NoneMatch(items[1..], matches) ==> NoneMatch(items, matches) by {
        if NoneMatch(items[1..], matches) {
          forall i | 0 <= i < |items| ensures !matches(items[i]) {
            if i > 0 { assert items[i] == items[1..][i - 1]; }
          }
        }
      }
      [items[0]] + DelFirst(items[1..], matches)
  }

  /**
   When some item matches, `del` removes exactly the first matching one and
   keeps every other item in its order.
   */
  lemma {:induction false} DelFirstRemovesFirstMatch<T>(items: seq<T>, matches: T -> bool)
    returns (k: nat)
    requires !NoneMatch(items, matches)
    ensures FirstMatch(items, matches, k)
    ensures DelFirst(items, matches) == items[..k] + items[k + 1..]
    decreases |items|
  {
    if matches(items[0]) {
      k := 0;
    } else {
      assert !NoneMatch(items[1..], matches) by {
        var i :| 0 <= i < |items| && matches(items[i]);
        assert items[1..][i - 1] == items[i];
      }
      var j := DelFirstRemovesFirstMatch(items[1..], matches);
      k := j + 1;
      assert items[..k] == [items[0]] + items[1..][..j];
      assert items[k + 1..] == items[1..][j + 1..];
    }
  }
}

=== FILE: scheduler.dfy ===
/**
 A first-in first-out queue of asynchronous tasks run one at a time: a task
 is started only after the previous one has signalled completion through its
 `ok` callback. Tasks are data here; what a task does when it runs is up to
 whoever interprets it.
 */
module Scheduler {

  datatype Option<T> = None | Some(value: T)

  datatype Scheduler<T> = Scheduler(
    inFlight: Option<T>,   // the started task whose `ok` has not been called yet
    waiting: seq<T>        // tasks added but not yet started, oldest first
  )

  /** A running task exists whenever a task is waiting. */
  ghost predicate Valid<T>(s: Scheduler<T>) {
    s.inFlight.None? ==> |s.waiting| == 0
  }

  /** The running task, if any, as a sequence of at most one task. */
  function Running<T>(s: Scheduler<T>): seq<T> {
    if s.inFlight.Some? then [s.inFlight.value] else []
  }

  /** All tasks not yet completed, in the order they will start. */
  function Pending<T>(s: Scheduler<T>): seq<T> {
    Running(s) + s.waiting
  }

  function Idle<T>(): (s: Scheduler<T>)
    ensures Valid(s) && Pending(s) == []
  {
    Scheduler(None, [])
  }

  /** `add`: an idle scheduler starts the task at once; a busy one queues it. */
  function Add<T>(s: Scheduler<T>, t: T): (r: Scheduler<T>)
    ensures Valid(s) ==> Valid(r) && r.inFlight.Some?
    ensures Pending(r) == Pending(s) + [t]
    ensures s.inFlight.Some? ==> r.inFlight == s.inFlight
    ensures Valid(s) && s.inFlight.None? ==> r.inFlight == Some(t)
  {
    if s.inFlight.None? && |s.waiting| == 0 then Scheduler(Some(t), [])
    else Scheduler(s.inFlight, s.waiting + [t])
  }

  /**
   The running task calls `ok`: the oldest waiting task starts, or the
   scheduler becomes idle when none is waiting.
   */
  function Ok<T>(s: Scheduler<T>): (r: Scheduler<T>)
    requires s.inFlight.Some?
    ensures Valid(r)
    ensures Pending(r) == Pending(s)[1..]
    ensures r.inFlight.None? <==> |s.waiting| == 0
  {
    if |s.waiting| == 0 then Scheduler(None, [])
    else Scheduler(Some(s.waiting[0]), s.waiting[1..])
  }

  /** What happens to a scheduler: a task is added, or the running task calls `ok`. */
  datatype Event<T> = Submit(task: T) | Complete

  /** The task an event submits, if any. */
  function SubmittedBy<T>(e: Event<T>): seq<T> {
    if e.Submit? then [e.task] else []
  }

  /** The tasks submitted in a run of events, in submission order. */
  function Submitted<T>(es: seq<Event<T>>): seq<T>
    decreases |es|
  {
    if |es| == 0 then [] else SubmittedBy(es[0]) + Submitted(es[1..])
  }

  /** The task an event completes: the running one, when the event is its `ok`. */
  function Finished<T>(s: Scheduler<T>, e: Event<T>): seq<T> {
    if e.Complete? && s.inFlight.Some? then [s.inFlight.value] else []
  }

  /**
   One event; returns the new scheduler and the task it started, if any. A
   `Complete` while idle has no callback to come from and changes nothing.
   */
  function Step<T>(s: Scheduler<T>, e: Event<T>): (r: (Scheduler<T>, seq<T>))
    ensures Valid(s) ==> Valid(r.0)
    ensures Valid(s) ==> s.waiting + SubmittedBy(e) == r.1 + r.0.waiting
    ensures |r.1| <= 1
    ensures |r.1| == 1 ==> r.0.inFlight == Some(r.1[0])
    ensures Valid(s) && e.Submit? && s.inFlight.None? ==> r.1 == [e.task]
    ensures Valid(s) && e.Complete? && s.inFlight.Some? ==> Pending(r.0) == Pending(s)[1..]
    ensures Valid(s) ==> Pending(s) + SubmittedBy(e) == Finished(s, e) + Pending(r.0)
    ensures Running(s) + r.1 == Finished(s, e) + Running(r.0)
  {
    match e
    case Submit(t) =>
      (Add(s, t), if s.inFlight.None? && |s.waiting| == 0 then [t] else [])
    case Complete =>
      if s.inFlight.None? then (s, [])
      else (Ok(s), if |s.waiting| == 0 then [] else [s.waiting[0]])
  }

  /** A run of events; returns the final scheduler and the tasks started, in starting order. */
  function Run<T>(s: Scheduler<T>, es: seq<Event<T>>): (r: (Scheduler<T>, seq<T>))
    decreases |es|
  {
    if |es| == 0 then (s, [])
    else
      var first := Step(s, es[0]);
      var rest := Run(first.0, es[1..]);
      (rest.0, first.1 + rest.1)
  }

  /** Concatenation regroups freely; a hint for the calculations below. */
  lemma AppendAssoc<T>(a: seq<T>, b: seq<T>, c: seq<T>)
    ensures (a + b) + c == a + (b + c)
  {
  }

  /**
   First in, first out: from a valid state, the tasks already waiting followed
   by those submitted are exactly the tasks started during the run followed by
   those still waiting.
   */
  lemma {:induction false} RunIsFifo<T>(s: Scheduler<T>, es: seq<Event<T>>)
    requires Valid(s)
    ensures Valid(Run(s, es).0)
    ensures s.waiting + Submitted(es) == Run(s, es).1 + Run(s, es).0.waiting
    decreases |es|
  {
    if |es| > 0 {
      var first := Step(s, es[0]);
      var rest := Run(first.0, es[1..]);
      RunIsFifo(first.0, es[1..]);
      assert Run(s, es) == (rest.0, first.1 + rest.1);
      calc {
        s.waiting + Submitted(es);
        { AppendAssoc(s.waiting, SubmittedBy(es[0]), Submitted(es[1..])); }
        (s.waiting + SubmittedBy(es[0])) + Submitted(es[1..]);
        (first.1 + first.0.waiting) + Submitted(es[1..]);
        { AppendAssoc(first.1, first.0.waiting, Submitted(es[1..])); }
        first.1 + (first.0.waiting + Submitted(es[1..]));
        first.1 + (rest.1 + rest.0.waiting);
        { AppendAssoc(first.1, rest.1, rest.0.waiting); }
        (first.1 + rest.1) + rest.0.waiting;
      }
    }
  }

  /** The tasks that call `ok` during a run of events, in the order they do. */
  function Completed<T>(s: Scheduler<T>, es: seq<Event<T>>): seq<T>
    decreases |es|
  {
    if |es| == 0 then []
    else Finished(s, es[0]) + Completed(Step(s, es[0]).0, es[1..])
  }

  /**
   Every task starts: over a run from a valid state, the pending and the
   submitted tasks are those completed followed by those still pending, and
   the task running at the start followed by the tasks started are those
   completed followed by the task running at the end.
   */
  lemma {:induction false} RunStartsEveryTask<T>(s: Scheduler<T>, es: seq<Event<T>>)
    requires Valid(s)
    ensures Pending(s) + Submitted(es) == Completed(s, es) + Pending(Run(s, es).0)
    ensures Running(s) + Run(s, es).1 == Completed(s, es) + Running(Run(s, es).0)
    decreases |es|
  {
    if |es| > 0 {
      var first := Step(s, es[0]);
      var rest := Run(first.0, es[1..]);
      var done := Finished(s, es[0]);
      var later := Completed(first.0, es[1..]);
      RunStartsEveryTask(first.0, es[1..]);
      assert Run(s, es) == (rest.0, first.1 + rest.1);
      calc {
        Pending(s) + Submitted(es);
        { AppendAssoc(Pending(s), SubmittedBy(es[0]), Submitted(es[1..])); }
        (Pending(s) + SubmittedBy(es[0])) + Submitted(es[1..]);
        (done + Pending(first.0)) + Submitted(es[1..]);
        { AppendAssoc(done, Pending(first.0), Submitted(es[1..])); }
        done + (later + Pending(rest.0));
        { AppendAssoc(done, later, Pending(rest.0)); }
        (done + later) + Pending(rest.0);
      }
      calc {
        Running(s) + (first.1 + rest.1);
        { AppendAssoc(Running(s), first.1, rest.1); }
        (done + Running(first.0)) + rest.1;
        { AppendAssoc(done, Running(first.0), rest.1); }
        done + (later + Running(rest.0));
        { AppendAssoc(done, later, Running(rest.0)); }
        (done + later) + Running(rest.0);
      }
    }
  }

  /**
   With two tasks submitted, the second one does not start until the first
   calls `ok`, and then it does.
   */
  lemma SecondWaitsForFirst<T>(a: T, b: T)
    ensures Run(Idle(), [Submit(a), Submit(b)]).1 == [a]
    ensures Run(Idle(), [Submit(a), Submit(b), Complete]).1 == [a, b]
  {
    var done: seq<Event<T>> := [Complete];
    assert [Submit(a), Submit(b)][1..] == [Submit(b)];
    assert Run(Add(Idle(), a), [Submit(b)]).1 == [];
    var busy := Add(Add(Idle(), a), b);
    assert busy.waiting == [b];
    assert Run(busy, [Complete]).1 == [b];
    assert [Submit(a), Submit(b), Complete][1..] == [Submit(b), Complete];
    assert [Submit(b), Complete][1..] == [Complete];
    assert [Submit(b)][1..] == [];
    assert done[1..] == [];
  }
}

=== FILE: todo.dfy ===
/**
 The model side of the todo controller: a list of todos, each with an
 observable text, an observable done flag and a derived validity, plus the
 shared minimum length and its mode ("letters" or "words"). Fortune todos
 are filled in by tasks run one at a time by a scheduler.
 */
module Todo {
  import opened Observable
  import Computed
  import ObservableList
  import Scheduler
  import Words

  /** The values the validity computation is fed: the controller's cells hold strings and numbers. */
  datatype JsValue = Str(s: string) | Num(n: int)

  const DefaultText: string := "text"
  const DefaultMinLength: int := 1
  const DefaultMode: string := "letters"
  const WordsMode: string := "words"
  const Placeholder: string := "..."

  /** The measured length of a text: its word count in "words" mode, its character count otherwise. */
  function Length(text: string, mode: string): (n: nat)
    ensures mode == WordsMode ==> n == Words.Runs(text, Words.IsJsSpace) + 1
    ensures mode != WordsMode ==> n == |text|
  {
    if mode == WordsMode then Words.WordCount(text, Words.IsJsSpace) else |text|
  }

  /** The validity rule: a todo is valid when its measured length reaches the minimum. */
  function Rule(text: string, minLength: int, mode: string): (b: bool)
    ensures minLength <= 0 ==> b
    ensures mode == WordsMode && minLength <= 1 ==> b
    ensures mode == WordsMode ==> (b <==> Words.Runs(text, Words.IsJsSpace) + 1 >= minLength)
    ensures mode != WordsMode ==> (b <==> |text| >= minLength)
  {
    Length(text, mode) >= minLength
  }

  /**
   The compute function of a todo's validity, called with the current values of
   the text, the minimum length and the mode, in that order. The controller only
   ever feeds it that shape; any other argument list counts as invalid.
   */
  function ValidFn(args: seq<JsValue>): (r: bool)
    ensures r ==> |args| == 3 && args[0].Str? && args[1].Num? && args[2].Str?
    ensures |args| == 3 && args[0].Str? && args[1].Num? && args[2].Str? ==>
              (r <==> Rule(args[0].s, args[1].n, args[2].s))
  {
    if |args| == 3 && args[0].Str? && args[1].Num? && args[2].Str? then
      Rule(args[0].s, args[1].n, args[2].s)
    else false
  }

  /** A derived value over exactly three inputs: text, minimum length, mode. */
  type Validity = c: Computed.Computed<JsValue, bool> | |c.inputs| == 3
    witness Computed.Computed(ValidFn, [Str(""), Num(0), Str("")], Cell(false, []), 0)

  datatype Todo = Todo(
    id: nat,              // the todo's identity
    text: Cell<string>,
    done: Cell<bool>,
    valid: Validity
  )

  function GetText(t: Todo): string { t.text.value }
  function GetDone(t: Todo): bool { t.done.value }
  function GetValid(t: Todo): bool { Computed.Value(t.valid) }

  /** `t`'s validity is wired to its own text and the given shared settings and is up to date. */
  ghost predicate TodoOk(t: Todo, minLength: int, mode: string) {
    && t.valid.f == ValidFn
    && t.valid.inputs == [Str(t.text.value), Num(minLength), Str(mode)]
    && Computed.Consistent(t.valid)
  }

  /** A wired todo reports exactly what the validity rule says of its current text. */
  lemma TodoOkMeansRule(t: Todo, minLength: int, mode: string)
    requires TodoOk(t, minLength, mode)
    ensures GetValid(t) == Rule(GetText(t), minLength, mode)
  {
  }

  /** `Todo()`: text "text", not done, validity computed from the current settings. */
  function NewTodo(id: nat, minLength: int, mode: string): (t: Todo)
    ensures t.id == id && GetText(t) == DefaultText && !GetDone(t)
    ensures TodoOk(t, minLength, mode)
    ensures GetValid(t) == Rule(DefaultText, minLength, mode)
    ensures |t.text.changes| == 0 && |t.done.changes| == 0
    ensures |Computed.Notifications(t.valid)| == 0 && t.valid.recomputes == 0
  {
    Todo(id, Observable.Make(DefaultText), Observable.Make(false),
         Computed.Make(ValidFn, [Str(DefaultText), Num(minLength), Str(mode)]))
  }

  /** `setText` on one todo: its validity hears of the change only when the text really changes. */
  function TodoSetText(t: Todo, text: string): (r: Todo)
    ensures r.id == t.id && GetText(r) == text && r.done == t.done
    ensures text == GetText(t) ==> r == t
    ensures text != GetText(t) ==> r.valid.recomputes == t.valid.recomputes + 1
    ensures text != GetText(t) ==> r.text.changes == t.text.changes + [Change(GetText(t), text)]
    ensures Computed.Notifications(t.valid) <= Computed.Notifications(r.valid)
    ensures GetValid(r) == GetValid(t) <==>
              Computed.Notifications(r.valid) == Computed.Notifications(t.valid)
    ensures GetValid(r) != GetValid(t) ==>
              Computed.Notifications(r.valid) ==
                Computed.Notifications(t.valid) + [Change(GetValid(t), GetValid(r))]
    ensures forall n, m :: TodoOk(t, n, m) ==> TodoOk(r, n, m)
  {
    if text == t.text.value then t
    else t.(text := SetValue(t.text, text), valid := Computed.InputChanged(t.valid, 0, Str(text)))
  }

  datatype Controller = Controller(
    todos: seq<Todo>,                       // the observable list of todos, in insertion order
    nextId: nat,                            // identity for the next todo created
    minLength: Cell<int>,
    minLengthMode: Cell<string>,
    scheduler: Scheduler.Scheduler<nat>     // pending fortune tasks, by todo identity
  )

  /** Every todo's validity is wired and current, identities are distinct, the scheduler is sane. */
  ghost predicate Inv(c: Controller) {
    && (forall k :: 0 <= k < |c.todos| ==>
          TodoOk(c.todos[k], c.minLength.value, c.minLengthMode.value))
    && (forall k :: 0 <= k < |c.todos| ==> c.todos[k].id < c.nextId)
    && (forall j, k :: 0 <= j < k < |c.todos| ==> c.todos[j].id != c.todos[k].id)
    && Scheduler.Valid(c.scheduler)
  }

  /** `TodoController()`: no todos, minimum length 1 in "letters" mode, scheduler idle. */
  function Init(): (c: Controller)
    ensures Inv(c)
    ensures NumberOfTodos(c) == 0 && NumberOfOpenTasks(c) == 0
    ensures c.minLength.value == 1 && c.minLengthMode.value == "letters"
    ensures c.scheduler == Scheduler.Idle() && Scheduler.Pending(c.scheduler) == []
  {
    Controller([], 0, Observable.Make(DefaultMinLength), Observable.Make(DefaultMode),
               Scheduler.Idle())
  }

  /** `numberOfTodos`. */
  function NumberOfTodos(c: Controller): (n: nat)
    ensures n == |c.todos|
  {
    ObservableList.Count(c.todos)
  }

  /** `numberOfopenTasks`: how many todos are not done. */
  function NumberOfOpenTasks(c: Controller): (n: nat)
    ensures n <= NumberOfTodos(c)
  {
    ObservableList.CountIf(c.todos, (t: Todo) => !t.done.value)
  }

  /** The positions of the todos that are not done. */
  ghost function OpenPositions(c: Controller): set<nat> {
    set k: nat | k < |c.todos| && !c.todos[k].done.value
  }

  /** The open-task count is the number of todos whose done flag is false. */
  lemma OpenTasksAreNotDone(c: Controller)
    ensures NumberOfOpenTasks(c) == |OpenPositions(c)|
    ensures NumberOfOpenTasks(c) <= NumberOfTodos(c)
  {
    var open := (t: Todo) => !t.done.value;
    ObservableList.CountIfIsPositions(c.todos, open);
    assert ObservableList.Positions(c.todos, open) == OpenPositions(c);
  }

  /** `addTodo`: appends one fresh todo and returns it; nothing else changes. */
  function AddTodo(c: Controller): (r: (Controller, Todo))
    ensures r.0.todos == ObservableList.Add(c.todos, r.1)
    ensures r.1 == NewTodo(c.nextId, c.minLength.value, c.minLengthMode.value)
    ensures r.0.nextId == c.nextId + 1
    ensures NumberOfTodos(r.0) == NumberOfTodos(c) + 1
    ensures NumberOfOpenTasks(r.0) == NumberOfOpenTasks(c) + 1
    ensures GetText(r.1) == DefaultText && !GetDone(r.1)
    ensures GetValid(r.1) == Rule(DefaultText, c.minLength.value, c.minLengthMode.value)
    ensures r.0.minLength == c.minLength && r.0.minLengthMode == c.minLengthMode
    ensures r.0.scheduler == c.scheduler
    ensures Inv(c) ==> Inv(r.0)
  {
    var t := NewTodo(c.nextId, c.minLength.value, c.minLengthMode.value);
    ObservableList.CountIfAdd(c.todos, t, (t: Todo) => !t.done.value);
    AppendKeepsInv(c, t);
    (c.(todos := ObservableList.Add(c.todos, t), nextId := c.nextId + 1), t)
  }

  /** Appending a wired todo with the next identity keeps the invariant. */
  lemma AppendKeepsInv(c: Controller, t: Todo)
    requires TodoOk(t, c.minLength.value, c.minLengthMode.value) && t.id == c.nextId
    ensures Inv(c) ==> Inv(c.(todos := ObservableList.Add(c.todos, t), nextId := c.nextId + 1))
  {
    var todos := ObservableList.Add(c.todos, t);
    assert forall k :: 0 <= k < |c.todos| ==> todos[k] == c.todos[k];
  }

  /** Sets the text of the todo with identity `id`; a todo no longer in the list changes nothing here. */
  function SetText(c: Controller, id: nat, text: string): (r: Controller)
    ensures |r.todos| == |c.todos| && r.nextId == c.nextId
    ensures r.minLength == c.minLength && r.minLengthMode == c.minLengthMode
    ensures r.scheduler == c.scheduler
    ensures forall k :: 0 <= k < |c.todos| && c.todos[k].id == id ==> GetText(r.todos[k]) == text
    ensures forall k :: 0 <= k < |c.todos| && c.todos[k].id == id ==>
              r.todos[k] == TodoSetText(c.todos[k], text)
    ensures forall k :: 0 <= k < |c.todos| ==>
              r.todos[k].id == c.todos[k].id && r.todos[k].done == c.todos[k].done
    ensures forall k :: 0 <= k < |c.todos| && c.todos[k].id != id ==> r.todos[k] == c.todos[k]
    ensures Inv(c) ==> Inv(r)
  {
    var todos := seq(|c.todos|, k requires 0 <= k < |c.todos| =>
      if c.todos[k].id == id then TodoSetText(c.todos[k], text) else c.todos[k]);
    c.(todos := todos)
  }

  /** Sets the done flag of the todo with identity `id`. */
  function SetDone(c: Controller, id: nat, done: bool): (r: Controller)
    ensures |r.todos| == |c.todos| && r.nextId == c.nextId
    ensures r.minLength == c.minLength && r.minLengthMode == c.minLengthMode
    ensures r.scheduler == c.scheduler
    ensures forall k :: 0 <= k < |c.todos| && c.todos[k].id == id ==> GetDone(r.todos[k]) == done
    ensures forall k :: 0 <= k < |c.todos| && c.todos[k].id == id && done != GetDone(c.todos[k]) ==>
              r.todos[k].done.changes == c.todos[k].done.changes + [Change(GetDone(c.todos[k]), done)]
    ensures forall k :: 0 <= k < |c.todos| && c.todos[k].id == id && done == GetDone(c.todos[k]) ==>
              r.todos[k] == c.todos[k]
    ensures forall k :: 0 <= k < |c.todos| && c.todos[k].id != id ==> r.todos[k] == c.todos[k]
    ensures forall k :: 0 <= k < |c.todos| ==>
              r.todos[k].id == c.todos[k].id && r.todos[k].text == c.todos[k].text
              && r.todos[k].valid == c.todos[k].valid
    ensures Inv(c) ==> Inv(r)
  {
    var todos := seq(|c.todos|, k requires 0 <= k < |c.todos| =>
      if c.todos[k].id == id then c.todos[k].(done := SetValue(c.todos[k].done, done))
      else c.todos[k]);
    c.(todos := todos)
  }

  /**
   A validity heard of one input change: it was recomputed once, its earlier
   notifications are kept, and its listeners hear something exactly when the
   value changed, namely one notification with the old and the new value.
   */
  predicate Revalidated(before: Validity, after: Validity) {
    && after.recomputes == before.recomputes + 1
    && Computed.Notifications(before) <= Computed.Notifications(after)
    && (Computed.Value(after) == Computed.Value(before) <==>
        Computed.Notifications(after) == Computed.Notifications(before))
    && (Computed.Value(after) != Computed.Value(before) ==>
        Computed.Notifications(after) ==
          Computed.Notifications(before) + [Change(Computed.Value(before), Computed.Value(after))])
  }

  /**
   `setMinLength`: when the value really changes, every todo's validity hears of
   it and is recomputed; an equal value changes nothing.
   */
  function SetMinLength(c: Controller, n: int): (r: Controller)
    ensures r.minLength.value == n && r.minLengthMode == c.minLengthMode
    ensures r.scheduler == c.scheduler && r.nextId == c.nextId
    ensures n == c.minLength.value ==> r == c
    ensures n != c.minLength.value ==>
              r.minLength.changes == c.minLength.changes + [Change(c.minLength.value, n)]
    ensures |r.todos| == |c.todos|
    ensures forall k :: 0 <= k < |c.todos| ==>
              r.todos[k].id == c.todos[k].id && r.todos[k].text == c.todos[k].text
              && r.todos[k].done == c.todos[k].done
    ensures n != c.minLength.value ==> forall k :: 0 <= k < |c.todos| ==>
              Revalidated(c.todos[k].valid, r.todos[k].valid)
    ensures Inv(c) ==> Inv(r)
  {
    if n == c.minLength.value then c
    else
      var todos := seq(|c.todos|, k requires 0 <= k < |c.todos| =>
        c.todos[k].(valid := Computed.InputChanged(c.todos[k].valid, 1, Num(n))));
      c.(minLength := SetValue(c.minLength, n), todos := todos)
  }

  /** `setMinLengthMode`: the same for the mode, which is the validity's third input. */
  function SetMinLengthMode(c: Controller, mode: string): (r: Controller)
    ensures r.minLengthMode.value == mode && r.minLength == c.minLength
    ensures r.scheduler == c.scheduler && r.nextId == c.nextId
    ensures mode == c.minLengthMode.value ==> r == c
    ensures mode != c.minLengthMode.value ==>
              r.minLengthMode.changes == c.minLengthMode.changes + [Change(c.minLengthMode.value, mode)]
    ensures |r.todos| == |c.todos|
    ensures forall k :: 0 <= k < |c.todos| ==>
              r.todos[k].id == c.todos[k].id && r.todos[k].text == c.todos[k].text
              && r.todos[k].done == c.todos[k].done
    ensures mode != c.minLengthMode.value ==> forall k :: 0 <= k < |c.todos| ==>
              Revalidated(c.todos[k].valid, r.todos[k].valid)
    ensures Inv(c) ==> Inv(r)
  {
    if mode == c.minLengthMode.value then c
    else
      var todos := seq(|c.todos|, k requires 0 <= k < |c.todos| =>
        c.todos[k].(valid := Computed.InputChanged(c.todos[k].valid, 2, Str(mode))));
      c.(minLengthMode := SetValue(c.minLengthMode, mode), todos := todos)
  }

  /** `removeTodo`: the todo with identity `id` leaves the list; an absent one is ignored. */
  function RemoveTodo(c: Controller, id: nat): (r: Controller)
    ensures |r.todos| <= |c.todos|
    ensures r.minLength == c.minLength && r.minLengthMode == c.minLengthMode
    ensures r.nextId == c.nextId && r.scheduler == c.scheduler
  {
    c.(todos := ObservableList.DelFirst(c.todos, (t: Todo) => t.id == id))
  }

  /**
   Removing takes out exactly the todo with that identity, keeps the others in
   their order and keeps the controller's invariant; an unknown identity
   changes nothing.
   */
  lemma RemoveTodoKeepsInv(c: Controller, id: nat)
    requires Inv(c)
    ensures Inv(RemoveTodo(c, id))
    ensures forall k :: 0 <= k < |RemoveTodo(c, id).todos| ==> RemoveTodo(c, id).todos[k].id != id
    ensures (forall k :: 0 <= k < |c.todos| ==> c.todos[k].id != id) ==> RemoveTodo(c, id) == c
    ensures (exists k :: 0 <= k < |c.todos| && c.todos[k].id == id) ==>
              NumberOfTodos(RemoveTodo(c, id)) == NumberOfTodos(c) - 1
    ensures (exists k :: 0 <= k < |c.todos| && c.todos[k].id == id) ==>
              exists k :: 0 <= k < |c.todos| && c.todos[k].id == id &&
                RemoveTodo(c, id).todos == c.todos[..k] + c.todos[k + 1..]
  {
    var matches := (t: Todo) => t.id == id;
    if !ObservableList.NoneMatch(c.todos, matches) {
      var k := ObservableList.DelFirstRemovesFirstMatch(c.todos, matches);
      DropOneKeepsInv(c, k, RemoveTodo(c, id).todos);
      assert c.todos[k].id == id;
    }
  }

  /** Dropping the todo at position `k`, whose identity is unique, keeps the invariant. */
  lemma DropOneKeepsInv(c: Controller, k: nat, todos: seq<Todo>)
    requires Inv(c) && k < |c.todos|
    requires todos == c.todos[..k] + c.todos[k + 1..]
    ensures Inv(c.(todos := todos))
    ensures forall i :: 0 <= i < |todos| ==> todos[i].id != c.todos[k].id
  {
    DropOneShifts(c.todos, k, todos);
    forall i, j | 0 <= i < j < |todos| ensures todos[i].id != todos[j].id {
      assert todos[i] == c.todos[Skip(i, k)] && todos[j] == c.todos[Skip(j, k)];
    }
  }

  /** After dropping position `k`, position `i` holds what position `Skip(i, k)` held. */
  lemma DropOneShifts(todos: seq<Todo>, k: nat, rest: seq<Todo>)
    requires k < |todos| && rest == todos[..k] + todos[k + 1..]
    ensures |rest| == |todos| - 1
    ensures forall i :: 0 <= i < |rest| ==> rest[i] == todos[Skip(i, k)]
  {
  }

  /** The position in the original list of position `i` after position `k` was dropped. */
  function Skip(i: nat, k: nat): (j: nat)
    ensures j != k && (j < k <==> i < k)
  {
    if i < k then i else i + 1
  }

  /**
   `addFortuneTodo`: appends a fresh todo, sets its text to "..." at once and
   queues a task that will fill in the fortune text later.
   */
  function AddFortuneTodo(c: Controller): (r: Controller)
    ensures NumberOfTodos(r) == NumberOfTodos(c) + 1
    ensures r.todos[..|c.todos|] == c.todos
    ensures GetText(r.todos[|c.todos|]) == Placeholder && !GetDone(r.todos[|c.todos|])
    ensures GetValid(r.todos[|c.todos|]) ==
              Rule(Placeholder, c.minLength.value, c.minLengthMode.value)
    ensures Scheduler.Pending(r.scheduler) ==
              Scheduler.Pending(c.scheduler) + [r.todos[|c.todos|].id]
    ensures r.minLength == c.minLength && r.minLengthMode == c.minLengthMode
    ensures Inv(c) ==> Inv(r)
  {
    var t := TodoSetText(NewTodo(c.nextId, c.minLength.value, c.minLengthMode.value), Placeholder);
    AppendKeepsInv(c, t);
    c.(todos := ObservableList.Add(c.todos, t), nextId := c.nextId + 1,
       scheduler := Scheduler.Add(c.scheduler, t.id))
  }

  /** A fortune todo is what `addTodo` followed by `setText("...")` on the new todo gives. */
  lemma FortuneTodoIsAddThenSetText(c: Controller)
    requires Inv(c)
    ensures var (c1, t) := AddTodo(c);
            AddFortuneTodo(c).todos == SetText(c1, t.id, Placeholder).todos
  {
    var (c1, t) := AddTodo(c);
    var r := AddFortuneTodo(c).todos;
    var s := SetText(c1, t.id, Placeholder).todos;
    assert |r| == |s|;
    forall k | 0 <= k < |r| ensures r[k] == s[k] {
      if k < |c.todos| {
        assert c1.todos[k] == c.todos[k];
      }
    }
  }

  /**
   The fortune for the running task arrives: its todo gets the fetched text
   and the task signals completion, which starts the next queued task.
   */
  function FortuneArrives(c: Controller, fortune: string): (r: Controller)
    requires c.scheduler.inFlight.Some?
    ensures |r.todos| == |c.todos|
    ensures forall k :: 0 <= k < |c.todos| && c.todos[k].id == c.scheduler.inFlight.value ==>
              GetText(r.todos[k]) == fortune
    ensures forall k :: 0 <= k < |c.todos| && c.todos[k].id == c.scheduler.inFlight.value ==>
              r.todos[k] == TodoSetText(c.todos[k], fortune)
    ensures forall k :: 0 <= k < |c.todos| ==>
              r.todos[k].id == c.todos[k].id && r.todos[k].done == c.todos[k].done
    ensures forall k :: 0 <= k < |c.todos| && c.todos[k].id != c.scheduler.inFlight.value ==>
              r.todos[k] == c.todos[k]
    ensures r.minLength == c.minLength && r.minLengthMode == c.minLengthMode && r.nextId == c.nextId
    ensures Scheduler.Pending(r.scheduler) == Scheduler.Pending(c.scheduler)[1..]
    ensures Inv(c) ==> Inv(r)
  {
    var c1 := SetText(c, c.scheduler.inFlight.value, fortune);
    c1.(scheduler := Scheduler.Ok(c1.scheduler))
  }

  /** Everything that can happen to the controller's model. */
  datatype Op =
    | AddTodoOp
    | AddFortuneTodoOp
    | SetTextOp(id: nat, text: string)
    | SetDoneOp(id: nat, done: bool)
    | SetMinLengthOp(minLength: int)
    | SetMinLengthModeOp(mode: string)
    | RemoveTodoOp(id: nat)
    | FortuneArrivesOp(fortune: string)

  /**
   One operation. A fortune can only arrive for a started task; with the
   scheduler idle there is no callback to deliver it and nothing changes.
   */
  function Step(c: Controller, op: Op): Controller {
    match op
    case AddTodoOp => AddTodo(c).0
    case AddFortuneTodoOp => AddFortuneTodo(c)
    case SetTextOp(id, text) => SetText(c, id, text)
    case SetDoneOp(id, done) => SetDone(c, id, done)
    case SetMinLengthOp(n) => SetMinLength(c, n)
    case SetMinLengthModeOp(mode) => SetMinLengthMode(c, mode)
    case RemoveTodoOp(id) => RemoveTodo(c, id)
    case FortuneArrivesOp(fortune) =>
      if c.scheduler.inFlight.Some? then FortuneArrives(c, fortune) else c
  }

  /** The controller after a run of operations. */
  function Run(c: Controller, ops: seq<Op>): Controller
    decreases |ops|
  {
    if |ops| == 0 then c else Run(Step(c, ops[0]), ops[1..])
  }

  /** Every todo of a controller in a good state reports what the validity rule says right now. */
  lemma ValidTracksRule(c: Controller)
    requires Inv(c)
    ensures forall k :: 0 <= k < |c.todos| ==>
              GetValid(c.todos[k]) == Rule(GetText(c.todos[k]), c.minLength.value, c.minLengthMode.value)
  {
    forall k | 0 <= k < |c.todos|
      ensures GetValid(c.todos[k]) == Rule(GetText(c.todos[k]), c.minLength.value, c.minLengthMode.value)
    {
      TodoOkMeansRule(c.todos[k], c.minLength.value, c.minLengthMode.value);
    }
  }

  lemma StepKeepsInv(c: Controller, op: Op)
    requires Inv(c)
    ensures Inv(Step(c, op))
  {
    if op.RemoveTodoOp? {
      RemoveTodoKeepsInv(c, op.id);
    }
  }

  /**
   After any run of operations from a fresh controller, every todo's validity
   equals the rule applied to its current text and the current shared settings.
   */
  lemma {:induction false} RunKeepsValidityCurrent(c: Controller, ops: seq<Op>)
    requires Inv(c)
    ensures Inv(Run(c, ops))
    ensures forall k :: 0 <= k < |Run(c, ops).todos| ==>
              GetValid(Run(c, ops).todos[k]) ==
                Rule(GetText(Run(c, ops).todos[k]), Run(c, ops).minLength.value,
                     Run(c, ops).minLengthMode.value)
    decreases |ops|
  {
    if |ops| > 0 {
      StepKeepsInv(c, ops[0]);
      RunKeepsValidityCurrent(Step(c, ops[0]), ops[1..]);
    } else {
      ValidTracksRule(c);
    }
  }

  /** A fresh todo is valid under the default settings, in either mode. */
  lemma FreshTodoIsValid()
    ensures GetValid(AddTodo(Init()).1)
    ensures Rule(DefaultText, DefaultMinLength, WordsMode)
  {
    Words.EmptyTextIsOneWord();
    assert |DefaultText| == 4;
  }

  /**
   In "words" mode a text that is one space measures two words, so it passes a
   minimum of 2 while a one-letter text does not.
   */
  lemma BlankTextCountsTwoWords()
    ensures Rule(" ", 2, WordsMode)
    ensures !Rule("a", 2, WordsMode)
  {
    Words.LoneSpaceIsTwoWords();
    Words.SplitNoSpace("a", Words.IsJsSpace);
  }

  /** `setMinLength` with a new value re-evaluates every todo against it. */
  lemma SetMinLengthRevalidates(c: Controller, n: int)
    requires Inv(c)
    ensures forall k :: 0 <= k < |c.todos| ==>
              GetValid(SetMinLength(c, n).todos[k]) ==
                Rule(GetText(c.todos[k]), n, c.minLengthMode.value)
  {
    ValidTracksRule(SetMinLength(c, n));
  }

  /** `setMinLengthMode` with a new mode re-evaluates every todo against it. */
  lemma SetMinLengthModeRevalidates(c: Controller, mode: string)
    requires Inv(c)
    ensures forall k :: 0 <= k < |c.todos| ==>
              GetValid(SetMinLengthMode(c, mode).todos[k]) ==
                Rule(GetText(c.todos[k]), c.minLength.value, mode)
  {
    ValidTracksRule(SetMinLengthMode(c, mode));
  }

  /** `setText` re-evaluates the edited todo against its new text. */
  lemma SetTextRevalidates(c: Controller, id: nat, text: string)
    requires Inv(c)
    ensures forall k :: 0 <= k < |c.todos| && c.todos[k].id == id ==>
              GetValid(SetText(c, id, text).todos[k]) ==
                Rule(text, c.minLength.value, c.minLengthMode.value)
  {
    ValidTracksRule(SetText(c, id, text));
  }
}

=== FILE: todo_view.dfy ===
/**
 The text the minimum-length view shows: the minimum and the mode, with the
 mode in the singular (its last character dropped) when the minimum is 1.
 */
module TodoView {
  import Decimal

  /** `s.slice(0, -1)`: everything but the last character; nothing for the empty string. */
  function DropLast(s: string): (r: string)
    ensures |s| > 0 ==> |r| == |s| - 1 && r + [s[|s| - 1]] == s
    ensures |s| == 0 ==> r == ""
  {
    if |s| == 0 then "" else s[..|s| - 1]
  }

  /** The unit printed after the number. */
  function Unit(minLength: int, mode: string): string {
    if minLength == 1 then DropLast(mode) else mode
  }

  /** The label of `MinTodoLengthView.render`. */
  function MinLengthLabel(minLength: int, mode: string): (shown: string)
    ensures shown == Decimal.IntToString(minLength) + " " + Unit(minLength, mode)
  {
    if minLength == 1 then
      assert Decimal.IntToString(1) == "1";
      "1 " + DropLast(mode)
    else Decimal.IntToString(minLength) + " " + mode
  }

  /**
   The label is the minimum written in decimal, a space, then the unit; reading
   the number back gives the minimum.
   */
  lemma LabelStatesMinLength(minLength: int, mode: string)
    ensures var shown := MinLengthLabel(minLength, mode);
            var digits := Decimal.IntToString(minLength);
            && shown == digits + " " + Unit(minLength, mode)
            && Decimal.IsIntText(digits)
            && Decimal.ParseInt(digits) == minLength
  {
    Decimal.IntRoundTrip(minLength);
  }

  /** The singular form is the plural form without its last character. */
  lemma SingularDropsLastChar(mode: string)
    requires |mode| > 0
    ensures MinLengthLabel(1, mode) + [mode[|mode| - 1]] == "1 " + mode
  {
    assert ("1 " + DropLast(mode)) + [mode[|mode| - 1]] == "1 " + (DropLast(mode) + [mode[|mode| - 1]]);
  }

  /** Under the defaults the view reads "1 letter"; a minimum of 3 words reads "3 words". */
  lemma DefaultLabels()
    ensures MinLengthLabel(1, "letters") == "1 letter"
    ensures MinLengthLabel(3, "words") == "3 words"
  {
    assert Decimal.IntToString(3) == "3";
  }
}

=== FILE: words.dfy ===
/**
 Splitting a string on runs of whitespace, as JavaScript's `text.split(/\s+/)`
 does. The whitespace test is a parameter; `IsJsSpace` is the set of
 characters the regular expression class `\s` matches. Positions are indices
 into the one string being split, so the definitions never re-slice it.
 */
module Words {

  /**
   The characters `\s` matches in ECMAScript: the WhiteSpace and
   LineTerminator code points.
   */
  function IsJsSpace(c: char): (b: bool)
    ensures c < '\U{0080}' ==> (b <==> c in " \t\n\r\U{000B}\U{000C}")
    ensures c in "\n\r\U{2028}\U{2029}" ==> b
  {
    || c == '\t' || c == '\n' || c == '\U{000B}' || c == '\U{000C}' || c == '\r'
    || c == ' ' || c == '\U{00A0}' || c == '\U{1680}'
    || ('\U{2000}' <= c <= '\U{200A}')
    || c == '\U{2028}' || c == '\U{2029}' || c == '\U{202F}' || c == '\U{205F}'
    || c == '\U{3000}' || c == '\U{FEFF}'
  }

  /** No character of `w` is whitespace. */
  predicate NoSpace(w: string, ws: char -> bool) {
    forall i :: 0 <= i < |w| ==> !ws(w[i])
  }

  /** Every character of `s` at positions `p` up to `q` is whitespace. */
  predicate SpaceBetween(s: string, ws: char -> bool, p: nat, q: nat)
    requires p <= q <= |s|
  {
    forall i :: p <= i < q ==> ws(s[i])
  }

  /** No character of `s` at positions `p` up to `q` is whitespace. */
  predicate NoSpaceBetween(s: string, ws: char -> bool, p: nat, q: nat)
    requires p <= q <= |s|
  {
    forall i :: p <= i < q ==> !ws(s[i])
  }

  /** The end of the whitespace run of `s` that starts at `q` (`q` itself if there is none). */
  function SpaceEnd(s: string, ws: char -> bool, q: nat): (e: nat)
    requires q <= |s|
    ensures q <= e <= |s|
    ensures q < |s| && ws(s[q]) ==> q < e
    ensures SpaceBetween(s, ws, q, e)
    ensures e == |s| || !ws(s[e])
    decreases |s| - q
  {
    if q < |s| && ws(s[q]) then SpaceEnd(s, ws, q + 1) else q
  }

  /** A whitespace run has one end. */
  lemma {:induction false} SpaceEndIsTheCut(s: string, ws: char -> bool, q: nat, e: nat)
    requires q <= e <= |s| && SpaceBetween(s, ws, q, e)
    requires e == |s| || !ws(s[e])
    ensures SpaceEnd(s, ws, q) == e
    decreases e - q
  {
    if q < e {
      SpaceEndIsTheCut(s, ws, q + 1, e);
    }
  }

  /**
   The pieces of `s` from a piece that starts at `p` and has been scanned up
   to `q` without meeting whitespace: a whitespace run at `q` closes the piece
   and the next one starts after the run; the end of `s` closes the last piece.
   */
  function SplitFrom(s: string, ws: char -> bool, p: nat, q: nat): (pieces: seq<string>)
    requires p <= q <= |s|
    ensures |pieces| >= 1
    decreases |s| - q
  {
    if q == |s| then [s[p..]]
    else if ws(s[q]) then
      var e := SpaceEnd(s, ws, q);
      [s[p..q]] + SplitFrom(s, ws, e, e)
    else SplitFrom(s, ws, p, q + 1)
  }

  /**
   The pieces of `s` between maximal whitespace runs, first to last. There is
   always at least one piece; a leading or trailing run yields an empty piece,
   and the empty string yields one empty piece.
   */
  function Split(s: string, ws: char -> bool): (pieces: seq<string>)
    ensures |pieces| >= 1
    ensures forall k :: 0 <= k < |pieces| ==> NoSpace(pieces[k], ws)
  {
    SplitFromHasNoSpace(s, ws, 0, 0);
    SplitFrom(s, ws, 0, 0)
  }

  /** `length` of the split result: the word count of a todo text. */
  function WordCount(s: string, ws: char -> bool): (n: nat)
    ensures n >= 1
    ensures n == Runs(s, ws) + 1
  {
    SplitCountsRuns(s, ws);
    |Split(s, ws)|
  }

  /** Position `i` starts a maximal whitespace run. */
  predicate RunStart(s: string, ws: char -> bool, i: nat)
    requires i < |s|
  {
    ws(s[i]) && (i == 0 || !ws(s[i - 1]))
  }

  /** The number of maximal whitespace runs that start at or after `q`. */
  function RunsFrom(s: string, ws: char -> bool, q: nat): nat
    requires q <= |s|
    decreases |s| - q
  {
    if q == |s| then 0
    else (if RunStart(s, ws, q) then 1 else 0) + RunsFrom(s, ws, q + 1)
  }

  /** The number of maximal whitespace runs in `s`. */
  function Runs(s: string, ws: char -> bool): nat {
    RunsFrom(s, ws, 0)
  }

  /** Inside a whitespace run no new run starts. */
  lemma {:induction false} RunsInsideRun(s: string, ws: char -> bool, q: nat, e: nat)
    requires q < e <= |s| && SpaceBetween(s, ws, q, e)
    ensures RunsFrom(s, ws, q + 1) == RunsFrom(s, ws, e)
    decreases e - q
  {
    if q + 1 < e {
      assert !RunStart(s, ws, q + 1);
      RunsInsideRun(s, ws, q + 1, e);
    }
  }

  lemma {:induction false} SplitFromCountsRuns(s: string, ws: char -> bool, p: nat, q: nat)
    requires p <= q <= |s|
    requires 0 < q < |s| && ws(s[q]) ==> !ws(s[q - 1])
    ensures |SplitFrom(s, ws, p, q)| == RunsFrom(s, ws, q) + 1
    decreases |s| - q
  {
    if q < |s| {
      if ws(s[q]) {
        var e := SpaceEnd(s, ws, q);
        assert RunStart(s, ws, q);
        RunsInsideRun(s, ws, q, e);
        SplitFromCountsRuns(s, ws, e, e);
      } else {
        assert !RunStart(s, ws, q);
        SplitFromCountsRuns(s, ws, p, q + 1);
      }
    }
  }

  /** Splitting yields one piece more than there are whitespace runs. */
  lemma SplitCountsRuns(s: string, ws: char -> bool)
    ensures |Split(s, ws)| == Runs(s, ws) + 1
  {
    SplitFromCountsRuns(s, ws, 0, 0);
  }

  /** The pieces joined back together, with nothing in between. */
  function Concat(pieces: seq<string>): string
    decreases |pieces|
  {
    if |pieces| == 0 then "" else pieces[0] + Concat(pieces[1..])
  }

  /** The non-whitespace characters of `s` from position `q` on, in order. */
  function FilterFrom(s: string, ws: char -> bool, q: nat): string
    requires q <= |s|
    decreases |s| - q
  {
    if q == |s| then "" else (if ws(s[q]) then "" else [s[q]]) + FilterFrom(s, ws, q + 1)
  }

  /** The non-whitespace characters of `s`, in order. */
  function Filter(s: string, ws: char -> bool): string {
    FilterFrom(s, ws, 0)
  }

  lemma {:induction false} FilterSkipsSpace(s: string, ws: char -> bool, q: nat, e: nat)
    requires q <= e <= |s| && SpaceBetween(s, ws, q, e)
    ensures FilterFrom(s, ws, q) == FilterFrom(s, ws, e)
    decreases e - q
  {
    if q < e {
      FilterSkipsSpace(s, ws, q + 1, e);
    }
  }

  lemma NoSpaceSlice(s: string, ws: char -> bool, p: nat, q: nat)
    requires p <= q <= |s| && NoSpaceBetween(s, ws, p, q)
    ensures NoSpace(s[p..q], ws)
  {
    forall i | 0 <= i < q - p ensures !ws(s[p..q][i]) {
      assert s[p..q][i] == s[p + i];
    }
  }

  lemma {:induction false} SplitFromHasNoSpace(s: string, ws: char -> bool, p: nat, q: nat)
    requires p <= q <= |s| && NoSpaceBetween(s, ws, p, q)
    ensures forall k :: 0 <= k < |SplitFrom(s, ws, p, q)| ==> NoSpace(SplitFrom(s, ws, p, q)[k], ws)
    decreases |s| - q
  {
    var pieces := SplitFrom(s, ws, p, q);
    if q == |s| {
      NoSpaceSlice(s, ws, p, q);
    } else if ws(s[q]) {
      var e := SpaceEnd(s, ws, q);
      var rest := SplitFrom(s, ws, e, e);
      SplitFromHasNoSpace(s, ws, e, e);
      NoSpaceSlice(s, ws, p, q);
      assert pieces == [s[p..q]] + rest;
      forall k | 0 <= k < |pieces| ensures NoSpace(pieces[k], ws) {
        if k > 0 {
          assert pieces[k] == rest[k - 1];
        }
      }
    } else {
      SplitFromHasNoSpace(s, ws, p, q + 1);
    }
  }

  lemma ConcatCons(x: string, rest: seq<string>)
    ensures Concat([x] + rest) == x + Concat(rest)
  {
    assert ([x] + rest)[1..] == rest;
  }

  lemma {:induction false} SplitFromConcat(s: string, ws: char -> bool, p: nat, q: nat)
    requires p <= q <= |s|
    ensures Concat(SplitFrom(s, ws, p, q)) == s[p..q] + FilterFrom(s, ws, q)
    decreases |s| - q
  {
    if q == |s| {
      ConcatCons(s[p..], []);
      assert s[p..] == s[p..q];
    } else if ws(s[q]) {
      var e := SpaceEnd(s, ws, q);
      var rest := SplitFrom(s, ws, e, e);
      ConcatCons(s[p..q], rest);
      SplitFromConcat(s, ws, e, e);
      FilterSkipsSpace(s, ws, q, e);
      assert s[e..e] + FilterFrom(s, ws, e) == FilterFrom(s, ws, e);
    } else {
      SplitFromConcat(s, ws, p, q + 1);
      assert s[p..q + 1] == s[p..q] + [s[q]];
      assert (s[p..q] + [s[q]]) + FilterFrom(s, ws, q + 1) == s[p..q] + ([s[q]] + FilterFrom(s, ws, q + 1));
    }
  }

  /**
   Splitting loses only the whitespace: no piece contains any, and the pieces
   joined together are exactly the non-whitespace characters of `s`.
   */
  lemma SplitKeepsWords(s: string, ws: char -> bool)
    ensures forall k :: 0 <= k < |Split(s, ws)| ==> NoSpace(Split(s, ws)[k], ws)
    ensures Concat(Split(s, ws)) == Filter(s, ws)
  {
    SplitFromConcat(s, ws, 0, 0);
    assert s[0..0] == "";
  }

  lemma {:induction false} SplitFromNoSpace(s: string, ws: char -> bool, p: nat, q: nat)
    requires p <= q <= |s| && NoSpaceBetween(s, ws, q, |s|)
    ensures SplitFrom(s, ws, p, q) == [s[p..]]
    decreases |s| - q
  {
    if q < |s| {
      SplitFromNoSpace(s, ws, p, q + 1);
    }
  }

  /** Text without whitespace is one word. */
  lemma SplitNoSpace(w: string, ws: char -> bool)
    requires NoSpace(w, ws)
    ensures Split(w, ws) == [w]
  {
    SplitFromNoSpace(w, ws, 0, 0);
  }

  /** The end of the whitespace run that starts at `q`, found by scanning. */
  method RunEnd(s: string, ws: char -> bool, q: nat) returns (e: nat)
    requires q < |s| && ws(s[q])
    ensures q < e <= |s|
    ensures e == SpaceEnd(s, ws, q)
  {
    e := q + 1;
    while e < |s| && ws(s[e])
      invariant q < e <= |s|
      invariant SpaceBetween(s, ws, q, e)
      decreases |s| - e
    {
      e := e + 1;
    }
    SpaceEndIsTheCut(s, ws, q, e);
  }

  /**
   The splitting loop of ECMA-262's `RegExp.prototype[@@split]`, for a pattern
   matching maximal whitespace runs: scan with `q` from the end `p` of the last
   match; at a whitespace run emit the piece `s[p..q]` and continue after the
   run; at the end emit the last piece `s[p..]`.
   */
  method RegExpSplit(s: string, ws: char -> bool) returns (pieces: seq<string>)
    ensures pieces == Split(s, ws)
  {
    pieces := [];
    var p, q := 0, 0;
    while q < |s|
      invariant 0 <= p <= q <= |s|
      invariant pieces + SplitFrom(s, ws, p, q) == Split(s, ws)
      decreases |s| - q
    {
      if ws(s[q]) {
        var e := RunEnd(s, ws, q);
        assert (pieces + [s[p..q]]) + SplitFrom(s, ws, e, e) == pieces + ([s[p..q]] + SplitFrom(s, ws, e, e));
        pieces := pieces + [s[p..q]];
        p, q := e, e;
      } else {
        q := q + 1;
      }
    }
    pieces := pieces + [s[p..]];
  }

  /** `"".split(/\s+/)` has one piece, and so does any text without whitespace. */
  lemma EmptyTextIsOneWord()
    ensures WordCount("", IsJsSpace) == 1
    ensures WordCount("text", IsJsSpace) == 1
  {
    SplitNoSpace("text", IsJsSpace);
  }

  /** A text that is a single space splits into two empty pieces: two words. */
  lemma LoneSpaceIsTwoWords()
    ensures Split(" ", IsJsSpace) == ["", ""]
    ensures WordCount(" ", IsJsSpace) == 2
  {
    var s := " ";
    assert SpaceEnd(s, IsJsSpace, 1) == 1;
    assert SpaceEnd(s, IsJsSpace, 0) == 1;
    assert s[1..] == "";
    assert SplitFrom(s, IsJsSpace, 1, 1) == [""];
  }

  lemma {:induction false} TrailingSpaceFrom(s: string, ws: char -> bool, p: nat, q: nat)
    requires p <= q < |s| && ws(s[|s| - 1])
    ensures |SplitFrom(s, ws, p, q)| >= 2
    ensures SplitFrom(s, ws, p, q)[|SplitFrom(s, ws, p, q)| - 1] == ""
    decreases |s| - q
  {
    if ws(s[q]) {
      var e := SpaceEnd(s, ws, q);
      var rest := SplitFrom(s, ws, e, e);
      if e < |s| {
        TrailingSpaceFrom(s, ws, e, e);
      } else {
        assert rest == [s[|s|..]];
      }
      assert SplitFrom(s, ws, p, q) == [s[p..q]] + rest;
    } else {
      TrailingSpaceFrom(s, ws, p, q + 1);
    }
  }

  /**
   Whitespace at the start of a text yields an empty first piece; whitespace
   at its end yields an empty last piece, and so at least two pieces.
   */
  lemma EdgeSpacesGiveEmptyPieces(s: string, ws: char -> bool)
    requires |s| > 0
    ensures ws(s[0]) ==> Split(s, ws)[0] == ""
    ensures ws(s[|s| - 1]) ==> |Split(s, ws)| >= 2 && Split(s, ws)[|Split(s, ws)| - 1] == ""
  {
    if ws(s[|s| - 1]) {
      TrailingSpaceFrom(s, ws, 0, 0);
    }
  }
}
